=== FILE: README.md ===
# hg log comber: changeset log model

A Dafny model of the changeset-log handling of the Sublime Text plug-in
"SublimeHgComber" (`inspector.py`). Its command class has methods that,
when called, do the following:

- build an `hg log` command for the last 30 changesets of a file, with a
  one-line-per-changeset template (`{rev}`, `{node|short}`, `{branch}`,
  `{author|person}`, `{date|isodate}` and `{desc}`, joined by the field
  separator `|` and ended by a line break);
- parse each line of its output into a changeset record;
- set a cursor to a picked entry;
- build the `hg log -p` command that fetches the patch of the changeset
  under the cursor, compose the panel text from its summary and that patch,
  and move the cursor on to the next changeset. As written this last method
  stops at once with an AttributeError, because it reads
  `self.current_changeset`, which nothing assigns (inspector.py:142). What
  it is described to do here, and what the model proves of it, holds under
  the reading of that attribute given in "Modelling decisions" below.

The model has five modules:

- `Wrappers` (`wrappers.dfy`): `Option` and `Result`.
- `Text` (`text.dfy`): the Python string operations the code relies on.
  These are `str.split` with a one-character separator, `splitlines()`
  followed by dropping empty lines, and the decimal rendering of an
  integer. `Join`, which the plug-in never calls, is the inverse of `Split`
  that the model uses to describe the line the log template prints. Each
  comes with its round-trip lemmas.
- `Changeset` (`changeset.dfy`): the record of class `HgChangeset`, its
  parser (`__init__`), its summary (`__str__`), the line the log template
  prints for it, and the parse of a whole log output.
- `Commands` (`commands.dfy`): the log and diff command lines and
  `run_command`'s rule for turning standard output and standard error into
  a result.
- `Inspector` (`inspector.dfy`): the command class with its `changesets`
  list and its `current_changeset_index` cursor, as a Dafny class whose
  methods update those fields.

What the code does:

- The log output holds one record per line.
- Each record has six fields: revision, node, branch, author, date and
  description.
- The summary of a changeset is `rev:node [author date]`, a line break,
  and ` - ` followed by the description.
- `run` only records the file name and its directory; it calls none of
  the methods above. The popup menu whose callback is `menu_on_done` is
  commented out, and so is the call that would chain the next prompt after
  a search. The model therefore treats each method on its own, as if it
  were called.
- Picking and advancing the cursor are never checked against the length of
  the list. Under the model's reading of `self.current_changeset` as
  `changesets[current_changeset_index]`, an index past the end only fails
  when the changeset under the cursor is next read, and a negative index
  reads from the end of the list, as Python's list indexing does.

Modelling decisions:

- `splitlines()` is modelled as a split on `'\n'` that drops empty pieces.
  Python also breaks lines at `'\r'` and a few other characters; these are
  not modelled.
- `search_current_changeset` reads `self.current_changeset`, which the file
  never assigns. The model takes the current changeset to be
  `changesets[current_changeset_index]`, with Python's indexing rules
  (`LogCombCommand.Current`, `ListItem`).
- `menu_on_done` calls `search_current_changeset()` without the `text`
  argument that method declares and never uses, so as written it stops
  with a TypeError. Both versions are modelled; see "## Findings".
- Running a command is not modelled. Every method that runs one takes the
  process's standard output and standard error as parameters. It returns
  the command line it builds, and returns the panel text instead of
  writing it.

## Model

| member | source | states |
|---|---|---|
| Text.Split | inspector.py:36 | `str.split` yields at least one piece and no piece holds the separator |
| Text.SplitCount | inspector.py:36 | there is exactly one piece more than there are separators in the line |
| Text.SplitAppend | inspector.py:36 | the pieces of `a + sep + b` are the pieces of `a` followed by those of `b` |
| Text.SplitJoin | inspector.py:36 | splitting separator-free pieces joined by the separator gives back those pieces |
| Text.JoinSplit | inspector.py:36 | joining the pieces of a split with the separator rebuilds the original string |
| Text.NonEmpty | inspector.py:118 | the filter `if l` keeps exactly the non-empty pieces: each kept piece is non-empty and drawn from the input, and every non-empty input piece is kept |
| Text.NonEmptyLines | inspector.py:118 | every line handed to the parser is non-empty and holds no line break |
| Text.NonEmptyLinesOfTerminated | inspector.py:118 | reading the lines of '\n'-terminated output gives back exactly the non-empty, single-line lines written, in order |
| Text.NonEmptyAppend | inspector.py:118 | dropping empty pieces distributes over concatenation, so every non-empty piece is kept, in its order |
| Text.NonEmptyLinesAppend | inspector.py:118 | the lines of `a`, a line break and `b` are the lines of `a` followed by the lines of `b` |
| Text.BlankLineDropped | inspector.py:118 | a blank line contributes nothing: doubling a line break changes no line |
| Text.Decimal | inspector.py:110 | `'{}'.format(n)` is a non-empty string of decimal digits with no leading zero |
| Text.DecimalRoundTrip | inspector.py:110 | the decimal rendering denotes the number rendered |
| Changeset.Parse | inspector.py:35-42 | a line parses exactly when it has at least five field separators, and then revision, node, branch, author, date and description are tokens 0 to 5; otherwise it fails with MissingField at the token count, which is below six |
| Changeset.ParseLogLine | inspector.py:35-42 | parsing the template line of a record whose fields hold no field separator gives back exactly that record |
| Changeset.ParseCharacterization | inspector.py:36-42 | a line parses to `c` if and only if it is the template line of `c` (fields free of the separator), optionally followed by a separator and arbitrary text; the description is the text between the fifth and sixth separator, and later text is dropped |
| Changeset.ShortLineRejected | inspector.py:36-42 | a line of fewer than six tokens is an error naming the missing token, never a padded or partial record |
| Changeset.ShownDescription | inspector.py:45-47 | the slice `[:20]` only runs on descriptions shorter than 20, so the description is shown in full |
| Changeset.Summary | inspector.py:44-53 | `str(changeset)` is `rev:node [author date]`, a line break, ` - ` and the whole description |
| Changeset.SummaryLines | inspector.py:44-53 | when the fields the summary shows hold no line break, `str(changeset)` is two lines: `rev:node [author date]` and ` - ` followed by the full description |
| Changeset.ParseLines | inspector.py:116-119 | lines parse as a whole exactly when each does; then there is one record per line, in order; otherwise the error names the first bad line, and every earlier line parsed |
| Changeset.ParseLog | inspector.py:116-118 | a log output parses exactly when each of its non-empty lines does; then record i is the parse of non-empty line i, one record per line; otherwise the error names the first line that does not parse, its position and its parse error, and every earlier line parsed |
| Changeset.ParseLogAppend | inspector.py:116-119 | two outputs joined by a line break give the records of the first followed by those of the second, and a blank line between them changes nothing |
| Changeset.ParseLogRoundTrip | inspector.py:111-119 | parsing the log output the template prints for any changesets whose fields hold neither the separator nor a line break gives back the same changesets, in order |
| Changeset.MultiLineDescriptionBreaksLog | inspector.py:111-118 | a multi-line description whose last line has fewer than five separators makes the log output fail to parse, so the single-line condition of the round trip is needed |
| Commands.LogCommandWords | inspector.py:109-112 | the log command is the words `hg log --limit 30 --template '<template>' <file>`, with the six-field template given above |
| Commands.LogCommand | inspector.py:109-112 | the log command is `hg log --limit 30 --template '<template>' ` followed by the file name |
| Commands.DiffCommandWords | inspector.py:140-143 | the diff command is exactly the words `hg log -p -r <revision>:<node>`, and the last word splits back into revision and node |
| Commands.DiffCommand | inspector.py:141-143 | the diff command is `hg log -p -r ` followed by `<revision>:<node>` |
| Commands.CommandOutput | inspector.py:163-169 | the result is absent exactly when standard error is non-empty, and is otherwise standard output |
| Inspector.ListItem | inspector.py:142-143 | Python list indexing: defined exactly for indices in `-len .. len-1`, negative ones counting from the end |
| Inspector.PanelTextLines | inspector.py:146 | when the fields the summary shows hold no line break, the panel text is the summary's two lines followed by the patch's lines, or by the line `None` when the diff command failed |
| Inspector.PanelText | inspector.py:146 | the panel text starts with the summary and a line break, and the rest is the patch, or `None` when the diff command failed |
| Inspector.LogCombCommand.constructor | inspector.py:93 | a new command holds the file name, no changesets and no cursor |
| Inspector.LogCombCommand.Current | inspector.py:141-143 | the current changeset is the list item under the cursor, and there is one whenever the cursor is in range |
| Inspector.LogCombCommand.ParseHgLog | inspector.py:116-119 | the previous list is replaced; on success it holds exactly the parsed log, one record per non-empty line in order; on a bad line it holds the records of the lines before it and the error names that line |
| Inspector.LogCombCommand.GetChangesetsOld | inspector.py:109-114 | builds the log command for the file; when the command writes to standard error the list is left empty and the call fails; otherwise the list is as `ParseHgLog` leaves it |
| Inspector.LogCombCommand.SearchCurrentChangeset | inspector.py:140-148 | for the changeset under the cursor it yields the diff command and the panel text, then raises the cursor by exactly 1 with no bounds check; with no changeset under the cursor it fails and nothing changes |
| Inspector.LogCombCommand.MenuOnDoneAsWritten | inspector.py:128-130 | as written: the cursor is set to the picked index and the call without `text` fails, so no diff is produced and the cursor is not advanced |
| Inspector.LogCombCommand.MenuOnDone | inspector.py:128-130 | as intended (the `text` argument supplied): sets the cursor to the picked index, then searches; the cursor ends at index + 1 when the index names a changeset, and stays at the index otherwise |
| Inspector.MenuOnDoneDiscrepancy | inspector.py:128-140 | with one changeset listed and entry 0 picked, the as-written call yields an error where the intended one yields that changeset's diff command |

## Findings

| source | as written | input that shows it | evidently intended | confidence | as-written member | corrected member |
|---|---|---|---|---|---|---|
| inspector.py:130 | `menu_on_done` calls `self.search_current_changeset()` with no argument, but that method declares a `text` parameter (inspector.py:140), so the call raises TypeError | any call of `menu_on_done`, e.g. index 0 with one changeset listed: the cursor is left at 0 and no diff command is built; nothing in the file calls `menu_on_done` yet, since the popup that would is commented out (inspector.py:126), so the bug is latent | pass the (unused) text; the picked changeset's diff is then fetched and the cursor advances only once `self.current_changeset` is also defined (here as `changesets[current_changeset_index]`), since as written line 142 still raises AttributeError | not executed; high (the `text` parameter is never read, and `prompt_next_changeset` at inspector.py:136 hands the method to the input panel as its `on_done` callback, which supplies the text) | Inspector.LogCombCommand.MenuOnDoneAsWritten, Inspector.MenuOnDoneDiscrepancy | Inspector.LogCombCommand.MenuOnDone |

## Left out

- Process execution is not modelled: `subprocess.Popen`, `communicate`, the working-directory binding and UTF-8 decoding in `CommandRunner.run` and `run_command`. Outputs are taken as already-decoded strings passed in as parameters.
- The diagnostic `print` calls are not modelled. They only write to the editor's console.
- `CommandRunner` is not modelled. Its purpose is to run a command on a background thread.
- The Sublime Text UI calls are not modelled, because they are host-editor calls: `show_menu`, `prompt_next_changeset`, `on_prompt_change`, `cancel`, `update_panel`, `HgLogCombShowPanelCommand` and `HgLogInspectPanelCommand`. The text `update_panel` would receive is returned instead.
- The grep command is not modelled. The first `HgLogCombGrepFileCommand` is shadowed by the second and is dead code. It also has no parsing step, and it calls `run_command` and `update_panel`, which it does not define.
- `get_changesets` (the `--style compact` log) is not modelled. It only prints its output and never parses it.
- `run`'s check for an unsaved file and its computation of `file_wd` are not modelled. The class is built with the file name already known, and the working directory only matters for running processes.
- Text.NonEmptyLines: breaks lines at `'\n'` only, whereas Python's `splitlines` also breaks at `'\r'`, `'\r\n'` and other line-boundary characters.
- Commands.LogCommandWords: cuts the command at spaces rather than applying `shlex.split`, so the quotes around the template stay in that word. It also needs a file name without spaces, which `shlex` would split just the same.
- Commands.DiffCommandWords: cuts at spaces rather than applying `shlex.split`, and needs a revision and node without spaces, as Mercurial prints them.
- Inspector.LogCombCommand.MenuOnDone: models the call with its unused `text` argument supplied, so the search runs; as written the call fails with a TypeError, which `Inspector.LogCombCommand.MenuOnDoneAsWritten` models (see "## Findings").
- Inspector.LogCombCommand.Current: as written, `search_current_changeset` reads `self.current_changeset`, which is never assigned, so line 142 raises AttributeError on every call. The model instead takes the current changeset to be `changesets[current_changeset_index]`, and everything `SearchCurrentChangeset` and `MenuOnDone` promise rests on that reading.

=== FILE: changeset.dfy ===
/**
 * One changeset of `hg log` output (class `HgChangeset` in inspector.py):
 * the line the log template prints for it, how such a line is parsed back
 * into a record, the one-entry summary shown above a diff, and how a whole
 * log output becomes a list of records.
 */
module Changeset {
  import opened Wrappers
  import opened Text

  /** The field separator of the log template. */
  const FieldSeparator: char := '|'

  /** The six fields, in the order the template prints them. */
  datatype Changeset = Changeset(
    revision: string,
    node: string,
    branch: string,
    author: string,
    date: string,
    description: string)
  {
    function Fields(): seq<string>
    {
      [revision, node, branch, author, date, description]
    }

    /** No field holds the field separator, as the template needs for its
        output to be read back unambiguously. */
    predicate SeparatorFree()
    {
      forall i :: 0 <= i < |Fields()| ==> FieldSeparator !in Fields()[i]
    }

    /** No field holds a line break, so the record stays on one line. */
    predicate SingleLine()
    {
      forall i :: 0 <= i < |Fields()| ==> '\n' !in Fields()[i]
    }
  }

  /** Indexing the token list fails at `tokens[index]` (Python's IndexError):
      `index` is the number of tokens the line has, always below six. */
  datatype ParseError = MissingField(index: nat)

  /** `HgChangeset(line)`: split the line on '|' and take tokens 0 to 5 as
      revision, node, branch, author, date and description. */
  function Parse(line: string): (r: Result<Changeset, ParseError>)
    ensures r.Ok? <==> multiset(line)[FieldSeparator] >= 5
    ensures r.Ok? ==> var tokens := Split(line, FieldSeparator);
      |tokens| >= 6 && r.value.Fields() == tokens[..6]
    ensures r.Err? ==> r.error.index == multiset(line)[FieldSeparator] + 1 < 6
  {
    SplitCount(line, FieldSeparator);
    var tokens := Split(line, FieldSeparator);
    if |tokens| < 6 then Err(MissingField(|tokens|))
    else Ok(Changeset(tokens[0], tokens[1], tokens[2], tokens[3], tokens[4], tokens[5]))
  }

  /** The line the log template `{rev}|{node|short}|{branch}|{author|person}|
      {date|isodate}|{desc}` prints for a changeset, without its '\n'. */
  function LogLine(c: Changeset): string
  {
    Join(c.Fields(), FieldSeparator)
  }

  /** Parsing a template line gives back exactly the six fields written. */
  lemma {:induction false} ParseLogLine(c: Changeset)
    requires c.SeparatorFree()
    ensures Parse(LogLine(c)) == Ok(c)
  {
    SplitJoin(c.Fields(), FieldSeparator);
  }

  /** What a parsed line is, independently of how it is split: the six
      separator-free fields joined by '|', followed either by nothing or by a
      '|' and anything at all, which the parse drops. In particular the
      description is the text between the fifth and the sixth '|'. */
  lemma {:induction false} ParseCharacterization(line: string, c: Changeset)
    ensures Parse(line) == Ok(c) <==> RecordPrefix(line, c)
  {
    if Parse(line) == Ok(c) {
      ParsedLineIsRecordPrefix(line, c);
    }
    if RecordPrefix(line, c) {
      RecordPrefixParses(line, c);
    }
  }

  /** `line` starts with the template line of `c`, whose fields are free of
      '|', and goes on, if at all, with a '|'. */
  predicate RecordPrefix(line: string, c: Changeset)
  {
    c.SeparatorFree() && LogLine(c) <= line &&
    (|line| == |LogLine(c)| || line[|LogLine(c)|] == FieldSeparator)
  }

  lemma {:induction false} ParsedLineIsRecordPrefix(line: string, c: Changeset)
    requires Parse(line) == Ok(c)
    ensures RecordPrefix(line, c)
  {
    var tokens := Split(line, FieldSeparator);
    assert c.Fields() == tokens[..6];
    JoinSplit(line, FieldSeparator);
    if |tokens| > 6 {
      assert tokens == tokens[..6] + tokens[6..];
      JoinAppend(tokens[..6], tokens[6..], FieldSeparator);
      var rest := Join(tokens[6..], FieldSeparator);
      assert line == LogLine(c) + [FieldSeparator] + rest;
      assert line[|LogLine(c)|] == FieldSeparator;
    } else {
      assert tokens == tokens[..6];
      assert line == LogLine(c);
    }
  }

  lemma {:induction false} RecordPrefixParses(line: string, c: Changeset)
    requires RecordPrefix(line, c)
    ensures Parse(line) == Ok(c)
  {
    var n := |LogLine(c)|;
    SplitJoin(c.Fields(), FieldSeparator);
    if |line| != n {
      var rest := line[n + 1..];
      assert line == LogLine(c) + [FieldSeparator] + rest;
      SplitAppend(LogLine(c), rest, FieldSeparator);
      assert Split(line, FieldSeparator)[..6] == c.Fields();
    } else {
      assert line == LogLine(c);
    }
  }

  /** A line with fewer than six tokens is no record at all: it is an error,
      whatever the tokens hold, and no partial record is produced. */
  lemma {:induction false} ShortLineRejected(tokens: seq<string>)
    requires 1 <= |tokens| < 6
    requires forall i :: 0 <= i < |tokens| ==> FieldSeparator !in tokens[i]
    ensures Parse(Join(tokens, FieldSeparator)) == Err(MissingField(|tokens|))
  {
    SplitJoin(tokens, FieldSeparator);
  }

  /** The description as `__str__` shows it: sliced to 20 characters, but
      only when it is already shorter than that, so it is always shown in
      full. */
  function ShownDescription(description: string): (shown: string)
    ensures shown == description
  {
    if |description| < 20 then Prefix(description, 20) else description
  }

  /** The first line of `str(changeset)`: `rev:node [author date]`. */
  function SummaryHeader(c: Changeset): string
  {
    c.revision + ":" + c.node + " [" + c.author + " " + c.date + "]"
  }

  /** `str(changeset)`: the header line, then ` - ` and the description,
      which is shown whole whatever its length. */
  function Summary(c: Changeset): (s: string)
    ensures s == SummaryHeader(c) + "\n - " + c.description
  {
    SummaryHeader(c) + "\n - " + ShownDescription(c.description)
  }

  /** No field the summary shows holds a line break (the branch is not shown). */
  predicate SummarySingleLine(c: Changeset)
  {
    '\n' !in c.revision && '\n' !in c.node && '\n' !in c.author &&
    '\n' !in c.date && '\n' !in c.description
  }

  /** The summary of a changeset whose shown fields hold no line break has
      exactly two lines: the header with revision, node, author and date, and
      the full description. */
  lemma {:induction false} SummaryLines(c: Changeset)
    requires SummarySingleLine(c)
    ensures Split(Summary(c), '\n') == [SummaryHeader(c), " - " + c.description]
  {
    var header := SummaryHeader(c);
    var body := " - " + c.description;
    assert Summary(c) == header + ['\n'] + body by {
      assert "]\n - " == "]" + ['\n'] + " - ";
    }
    SplitTwoPieces(header, body, '\n');
  }

  /** A log line that cannot be parsed, with its position among the
      non-empty lines of the output. */
  datatype LogError = LogError(index: nat, line: string, error: ParseError)

  /** One changeset per line, in order, stopping at the first line that does
      not parse. */
  function ParseLines(lines: seq<string>): (r: Result<seq<Changeset>, LogError>)
    ensures r.Ok? <==> forall i :: 0 <= i < |lines| ==> Parse(lines[i]).Ok?
    ensures r.Ok? ==> (|r.value| == |lines| &&
      forall i :: 0 <= i < |lines| ==> Parse(lines[i]) == Ok(r.value[i]))
    ensures r.Err? ==>
      r.error.index < |lines| && r.error.line == lines[r.error.index] &&
      Parse(lines[r.error.index]) == Err(r.error.error) &&
      forall i :: 0 <= i < r.error.index ==> Parse(lines[i]).Ok?
  {
    if lines == [] then Ok([])
    else
      match Parse(lines[0])
      case Err(e) => Err(LogError(0, lines[0], e))
      case Ok(c) =>
        match ParseLines(lines[1..])
        case Ok(cs) => Ok([c] + cs)
        case Err(le) => Err(le.(index := le.index + 1))
  }

  /** The changesets in a whole `hg log` output: one per non-empty line. */
  function ParseLog(output: string): (r: Result<seq<Changeset>, LogError>)
    ensures var lines := NonEmptyLines(output);
      (r.Ok? <==> forall i :: 0 <= i < |lines| ==> Parse(lines[i]).Ok?) &&
      (r.Ok? ==> (|r.value| == |lines| &&
        forall i :: 0 <= i < |lines| ==> Parse(lines[i]) == Ok(r.value[i]))) &&
      (r.Err? ==> (r.error.index < |lines| && r.error.line == lines[r.error.index] &&
        Parse(lines[r.error.index]) == Err(r.error.error) &&
        forall i :: 0 <= i < r.error.index ==> Parse(lines[i]).Ok?))
  {
    ParseLines(NonEmptyLines(output))
  }

  /** Two outputs joined by a line break give the records of the first
      followed by those of the second: records keep the order of their
      lines, and blank lines add none. */
  lemma ParseLogAppend(a: string, b: string)
    requires ParseLog(a).Ok? && ParseLog(b).Ok?
    ensures ParseLog(a + "\n" + b) == Ok(ParseLog(a).value + ParseLog(b).value)
    ensures ParseLog(a + "\n\n" + b) == ParseLog(a + "\n" + b)
  {
    NonEmptyLinesAppend(a, b);
    BlankLineDropped(a, b);
    var la, lb := NonEmptyLines(a), NonEmptyLines(b);
    var va, vb := ParseLog(a).value, ParseLog(b).value;
    var lines := la + lb;
    forall i | 0 <= i < |lines|
      ensures Parse(lines[i]) == Ok((va + vb)[i])
    {
      if i < |la| {
        assert lines[i] == la[i];
      } else {
        assert lines[i] == lb[i - |la|];
      }
    }
    var r := ParseLines(lines);
    assert r.Ok?;
    assert r.value == va + vb;
  }

  /** What `hg log` prints for these changesets with the template above:
      one template line per changeset, each ended by '\n'. */
  function RenderLog(cs: seq<Changeset>): string
  {
    Terminated(seq(|cs|, i requires 0 <= i < |cs| => LogLine(cs[i])))
  }

  /** Parsing the log output gives back every changeset, in order, with no
      record added, dropped or merged, as long as no field holds '|' or a
      line break. */
  lemma {:induction false} ParseLogRoundTrip(cs: seq<Changeset>)
    requires forall i :: 0 <= i < |cs| ==> cs[i].SeparatorFree() && cs[i].SingleLine()
    ensures ParseLog(RenderLog(cs)) == Ok(cs)
  {
    var lines := seq(|cs|, i requires 0 <= i < |cs| => LogLine(cs[i]));
    forall i | 0 <= i < |cs|
      ensures lines[i] != [] && '\n' !in lines[i] && Parse(lines[i]) == Ok(cs[i])
    {
      SingleLineLogLine(cs[i]);
      ParseLogLine(cs[i]);
    }
    NonEmptyLinesOfTerminated(lines);
    assert ParseLog(RenderLog(cs)) == ParseLines(lines);
    var r := ParseLines(lines);
    assert r.value == cs;
  }

  /** A template line holds a line break only if some field does. */
  lemma {:induction false} SingleLineLogLine(c: Changeset)
    requires c.SingleLine()
    ensures '\n' !in LogLine(c)
  {
    JoinNoChar(c.Fields(), FieldSeparator, '\n');
  }

  lemma {:induction false} JoinNoChar(parts: seq<string>, sep: char, x: char)
    requires x != sep
    requires forall i :: 0 <= i < |parts| ==> x !in parts[i]
    ensures x !in Join(parts, sep)
  {
    if |parts| > 1 {
      JoinNoChar(parts[1..], sep, x);
    }
  }

  /** A description of several lines (`{desc}` prints the whole commit
      message) is cut by the line split, and its last line, when it holds
      fewer than five '|', is taken for a record of its own that does not
      parse: the whole log is rejected. */
  lemma {:induction false} MultiLineDescriptionBreaksLog(c: Changeset, first: string, last: string)
    requires c.description == first + "\n" + last
    requires '\n' !in first && '\n' !in last && last != []
    requires multiset(last)[FieldSeparator] < 5
    requires forall i :: 0 <= i < 5 ==> '\n' !in c.Fields()[i]
    ensures ParseLog(RenderLog([c])).Err?
  {
    var f := c.Fields();
    var head := Join(f[..5], FieldSeparator) + [FieldSeparator] + first;
    assert LogLine(c) == head + ['\n'] + last by {
      assert f == f[..5] + [c.description];
      JoinAppend(f[..5], [c.description], FieldSeparator);
    }
    assert '\n' !in head by {
      JoinNoChar(f[..5], FieldSeparator, '\n');
    }
    RenderOne(c);
    assert RenderLog([c]) == Terminated([head, last]) by {
      assert Terminated([head, last]) == head + "\n" + Terminated([last]);
      assert Terminated([last]) == last + "\n" + Terminated([]);
    }
    NonEmptyLinesOfTerminated([head, last]);
    assert Parse(last).Err?;
  }

  lemma RenderOne(c: Changeset)
    ensures RenderLog([c]) == LogLine(c) + "\n"
  {
    assert seq(1, i requires 0 <= i < 1 => LogLine([c][i])) == [LogLine(c)];
    assert Terminated([LogLine(c)]) == LogLine(c) + "\n" + Terminated([LogLine(c)][1..]);
    assert [LogLine(c)][1..] == [];
  }
}

=== FILE: commands.dfy ===
/**
 * The command lines the plug-in hands to Mercurial, and the rule by which
 * `run_command` turns a finished process into a result.
 */
module Commands {
  import opened Wrappers
  import opened Text
  import opened Changeset

  /** `MAX_CHANGESETS`: how many changesets the log command asks for. */
  const MaxChangesets: nat := 30

  /** The `--template` argument of the log command, as the command string
      holds it: six keywords joined by '|' and a backslash-n, which Mercurial
      expands to a line break. */
  const LogTemplate: string :=
    "{rev}|" + "{node|short}|" + "{branch}|" + "{author|person}|" + "{date|isodate}|" + "{desc}\\n"

  /** `get_changesets_old`'s command line for the file under inspection. */
  function LogCommand(fileName: string): (command: string)
    ensures command == "hg log --limit 30 " + "--template '" + LogTemplate + "' " + fileName
  {
    assert Decimal(MaxChangesets) == "30";
    "hg log --limit " + Decimal(MaxChangesets) + " " + "--template '" + LogTemplate + "' " + fileName
  }

  /** The log command, cut at its spaces, is `hg log --limit 30 --template`
      followed by the quoted template and the file name, when the file name
      holds no space. */
  lemma LogCommandWords(fileName: string)
    requires ' ' !in fileName
    ensures Split(LogCommand(fileName), ' ') ==
      ["hg", "log", "--limit", "30", "--template", "'" + LogTemplate + "'", fileName]
  {
    var template := "'" + LogTemplate + "'";
    LogCommandShape(fileName);
    SplitNoSeparator(fileName, ' ');
    SplitFirstWord(template, fileName, ' ');
    var w5 := template + [' '] + fileName;
    SplitFirstWord("--template", w5, ' ');
    var w4 := "--template" + [' '] + w5;
    SplitFirstWord("30", w4, ' ');
    var w3 := "30" + [' '] + w4;
    SplitFirstWord("--limit", w3, ' ');
    var w2 := "--limit" + [' '] + w3;
    SplitFirstWord("log", w2, ' ');
    SplitFirstWord("hg", "log" + [' '] + w2, ' ');
  }

  /** The log command as its seven words with one space between each. */
  lemma LogCommandShape(fileName: string)
    ensures LogCommand(fileName) ==
      "hg" + [' '] + ("log" + [' '] + ("--limit" + [' '] + ("30" + [' '] + ("--template" + [' '] +
      (("'" + LogTemplate + "'") + [' '] + fileName)))))
  {
  }

  /** `search_current_changeset`'s command line: the patch of the changeset
      named by its revision and node. */
  function DiffCommand(c: Changeset): (command: string)
    ensures "hg log -p -r " <= command
    ensures command[|"hg log -p -r "|..] == c.revision + ":" + c.node
  {
    "hg log -p -r " + c.revision + ":" + c.node
  }

  /** The diff command is exactly `hg log -p -r <revision>:<node>`: five words
      when revision and node hold no space, and the last one gives back
      revision and node when neither holds a ':'. */
  lemma DiffCommandWords(c: Changeset)
    requires ' ' !in c.revision && ' ' !in c.node
    ensures Split(DiffCommand(c), ' ') == ["hg", "log", "-p", "-r", c.revision + ":" + c.node]
    ensures ':' !in c.revision && ':' !in c.node ==>
      Split(c.revision + ":" + c.node, ':') == [c.revision, c.node]
  {
    var range := c.revision + ":" + c.node;
    assert DiffCommand(c) == "hg" + [' '] + ("log" + [' '] + ("-p" + [' '] + ("-r" + [' '] + range)));
    assert ' ' !in range;
    SplitNoSeparator(range, ' ');
    SplitFirstWord("-r", range, ' ');
    SplitFirstWord("-p", "-r" + [' '] + range, ' ');
    SplitFirstWord("log", "-p" + [' '] + ("-r" + [' '] + range), ' ');
    SplitFirstWord("hg", "log" + [' '] + ("-p" + [' '] + ("-r" + [' '] + range)), ' ');
    if ':' !in c.revision && ':' !in c.node {
      SplitTwoPieces(c.revision, c.node, ':');
    }
  }

  /** `run_command`'s verdict on a finished process: anything on standard
      error makes it a failure (`None`) whatever standard output holds;
      otherwise the result is standard output. */
  function CommandOutput(out: string, err: string): (result: Option<string>)
    ensures result.Some? <==> err == []
    ensures result.Some? ==> result.value == out
  {
    if err != [] then None else Some(out)
  }
}

=== FILE: inspector.dfy ===
/**
 * The log-combing command of inspector.py (the second
 * `HgLogCombGrepFileCommand` class, the one that shadows the first): it
 * keeps the changesets parsed from the file's log and a cursor into them,
 * and for the changeset under the cursor builds the diff command and the
 * text written to the output panel.
 *
 * Processes are not run here: each operation that runs a command takes the
 * command's standard output and standard error as parameters and returns
 * the command line it would have run.
 */
module Inspector {
  import opened Wrappers
  import opened Text
  import opened Changeset
  import opened Commands

  /** Python's `s[i]` on a list: a negative index counts from the end, and
      an index outside `-|s| .. |s| - 1` raises IndexError (here `None`). */
  function ListItem<T>(s: seq<T>, i: int): (item: Option<T>)
    ensures item.Some? <==> -|s| <= i < |s|
    ensures 0 <= i < |s| ==> item == Some(s[i])
    ensures -|s| <= i < 0 ==> item == Some(s[|s| + i])
  {
    if 0 <= i < |s| then Some(s[i])
    else if -|s| <= i < 0 then Some(s[|s| + i])
    else None
  }

  /** The text written to the output panel: the changeset's summary, a line
      break, and the patch, which Python's `format` renders as `None` when
      the diff command failed. */
  function PanelText(c: Changeset, patch: Option<string>): (text: string)
    ensures Summary(c) + "\n" <= text
    ensures text[|Summary(c)| + 1..] == if patch.Some? then patch.value else "None"
  {
    Summary(c) + "\n" + (if patch.Some? then patch.value else "None")
  }

  /** The panel shows the summary's two lines and then the patch's lines, or
      the single line `None` when the diff command wrote to standard error. */
  lemma {:induction false} PanelTextLines(c: Changeset, patch: Option<string>)
    requires SummarySingleLine(c)
    ensures Split(PanelText(c, patch), '\n') ==
      [SummaryHeader(c), " - " + c.description] +
      (if patch.Some? then Split(patch.value, '\n') else ["None"])
  {
    var rest := if patch.Some? then patch.value else "None";
    assert PanelText(c, patch) == Summary(c) + ['\n'] + rest;
    SplitAppend(Summary(c), rest, '\n');
    SummaryLines(c);
    if patch.None? {
      SplitNoSeparator("None", '\n');
    }
  }

  /** Why no diff step was taken: no selection was ever made, the cursor
      lies outside the list (Python's IndexError), or the search was called
      without its `text` argument (Python's TypeError). */
  datatype CursorError = Unselected | OutOfRange(index: int) | MissingArgument

  /** Why the changesets of a log could not be read: the log command wrote
      to standard error, or a line of its output is no record. */
  datatype FetchError = NoOutput | BadLine(error: LogError)

  /** What one step of the drill-down produces: the diff command it runs and
      the text it writes to the output panel. */
  datatype DiffStep = DiffStep(command: string, panelText: string)

  /** `cs` holds, in order, the records of the first `|cs|` lines. */
  ghost predicate ParsedPrefix(lines: seq<string>, cs: seq<Changeset>)
  {
    |cs| <= |lines| && forall j :: 0 <= j < |cs| ==> Parse(lines[j]) == Ok(cs[j])
  }

  class LogCombCommand {
    /** The file whose history is combed (`self.file_name`). */
    var fileName: string
    /** `self.changesets`, in the order of the log output. */
    var changesets: seq<Changeset>
    /** `self.current_changeset_index`; `None` until a changeset is picked. */
    var currentIndex: Option<int>

    constructor (fileName: string)
      ensures this.fileName == fileName && changesets == [] && currentIndex == None
    {
      this.fileName := fileName;
      changesets := [];
      currentIndex := None;
    }

    /** The changeset under the cursor, `changesets[current_changeset_index]`. */
    function Current(): (c: Option<Changeset>)
      reads this
      ensures c.Some? ==> currentIndex.Some? && c == ListItem(changesets, currentIndex.value)
      ensures currentIndex.Some? && -|changesets| <= currentIndex.value < |changesets| ==> c.Some?
    {
      if currentIndex.None? then None else ListItem(changesets, currentIndex.value)
    }

    /** `parse_hg_log`: the list is emptied, then one changeset is appended
        per non-empty line, in order. A line that is no record stops the
        parse there, leaving the changesets of the lines before it. */
    method ParseHgLog(output: string) returns (failure: Option<LogError>)
      modifies this`changesets
      ensures failure == (if ParseLog(output).Ok? then None else Some(ParseLog(output).error))
      ensures failure.None? ==> changesets == ParseLog(output).value
      ensures failure.Some? ==> |changesets| == failure.value.index
      ensures ParsedPrefix(NonEmptyLines(output), changesets)
    {
      changesets := [];
      var lines := NonEmptyLines(output);
      var i := 0;
      while i < |lines|
        invariant 0 <= i <= |lines|
        invariant |changesets| == i
        invariant forall j :: 0 <= j < i ==> Parse(lines[j]) == Ok(changesets[j])
      {
        var parsed := Parse(lines[i]);
        if parsed.Err? {
          var r := ParseLines(lines);
          assert r.Err? && r.error.index == i;
          return Some(LogError(i, lines[i], parsed.error));
        }
        changesets := changesets + [parsed.value];
        i := i + 1;
      }
      var r := ParseLines(lines);
      assert r.Ok?;
      assert changesets == r.value;
      return None;
    }

    /** `get_changesets_old`: run the log command and parse its output. When
        the command writes to standard error, `run_command` gives `None`;
        `parse_hg_log(None)` has already emptied the list when it fails on
        `None.splitlines()`. */
    method GetChangesetsOld(out: string, err: string) returns (command: string, failure: Option<FetchError>)
      modifies this`changesets
      ensures command == LogCommand(fileName)
      ensures err != [] ==> failure == Some(NoOutput) && changesets == []
      ensures err == [] ==> ParsedPrefix(NonEmptyLines(out), changesets)
      ensures err == [] && ParseLog(out).Ok? ==> failure.None? && changesets == ParseLog(out).value
      ensures err == [] && ParseLog(out).Err? ==>
        failure == Some(BadLine(ParseLog(out).error)) && |changesets| == ParseLog(out).error.index
    {
      command := LogCommand(fileName);
      var output := CommandOutput(out, err);
      if output.None? {
        changesets := [];
        return command, Some(NoOutput);
      }
      var bad := ParseHgLog(output.value);
      failure := if bad.Some? then Some(BadLine(bad.value)) else None;
    }

    /** `search_current_changeset`: build the diff command for the changeset
        under the cursor, run it, write the summary and the patch to the
        panel, then move the cursor on by one, with no check against the
        number of changesets. With no changeset under the cursor nothing
        happens beyond the error. */
    method SearchCurrentChangeset(patchOut: string, patchErr: string) returns (r: Result<DiffStep, CursorError>)
      modifies this`currentIndex
      ensures old(currentIndex).None? ==> r == Err(Unselected) && currentIndex == None
      ensures old(currentIndex).Some? && old(Current()).None? ==>
        r == Err(OutOfRange(old(currentIndex).value)) && currentIndex == old(currentIndex)
      ensures old(Current()).Some? ==>
        var c := old(Current()).value;
        r == Ok(DiffStep(DiffCommand(c), PanelText(c, CommandOutput(patchOut, patchErr)))) &&
        currentIndex == Some(old(currentIndex).value + 1)
    {
      var current := Current();
      if current.None? {
        return if currentIndex.None? then Err(Unselected) else Err(OutOfRange(currentIndex.value));
      }
      var c := current.value;
      var command := DiffCommand(c);
      var patch := CommandOutput(patchOut, patchErr);
      r := Ok(DiffStep(command, PanelText(c, patch)));
      currentIndex := Some(currentIndex.value + 1);
    }

    /** `menu_on_done` as written: the cursor is put on the picked entry, and
        the call `search_current_changeset()` then fails before doing
        anything, because it omits the `text` argument the method declares. */
    method MenuOnDoneAsWritten(index: int) returns (r: Result<DiffStep, CursorError>)
      modifies this`currentIndex
      ensures r == Err(MissingArgument) && currentIndex == Some(index)
    {
      currentIndex := Some(index);
      r := Err(MissingArgument);
    }

    /** `menu_on_done` as intended (the unused `text` argument supplied): put
        the cursor on the picked entry, then search it. */
    method MenuOnDone(index: int, patchOut: string, patchErr: string) returns (r: Result<DiffStep, CursorError>)
      modifies this`currentIndex
      ensures ListItem(changesets, index).None? ==>
        r == Err(OutOfRange(index)) && currentIndex == Some(index)
      ensures ListItem(changesets, index).Some? ==>
        var c := ListItem(changesets, index).value;
        r == Ok(DiffStep(DiffCommand(c), PanelText(c, CommandOutput(patchOut, patchErr)))) &&
        currentIndex == Some(index + 1)
    {
      currentIndex := Some(index);
      r := SearchCurrentChangeset(patchOut, patchErr);
    }
  }

  /** With one changeset listed and the first entry picked, `menu_on_done`
      as written yields no diff at all, where the intended one yields the
      diff command of that changeset. */
  method MenuOnDoneDiscrepancy(c: Changeset, patchOut: string)
    returns (asWritten: Result<DiffStep, CursorError>, intended: Result<DiffStep, CursorError>)
    ensures asWritten == Err(MissingArgument)
    ensures intended == Ok(DiffStep(DiffCommand(c), PanelText(c, Some(patchOut))))
  {
    var written := new LogCombCommand("notes.txt");
    written.changesets := [c];
    asWritten := written.MenuOnDoneAsWritten(0);
    var fixed := new LogCombCommand("notes.txt");
    fixed.changesets := [c];
    intended := fixed.MenuOnDone(0, patchOut, "");
  }
}

=== FILE: text.dfy ===
/**
 * The string operations the plug-in borrows from Python: `str.split(sep)`,
 * `str.splitlines()` followed by dropping empty lines, and the decimal
 * rendering of an integer by `'{}'.format(n)`. `Join`, which the plug-in
 * itself never calls, is the inverse of `Split` that this model uses to
 * describe what the log template prints.
 */
module Text {

  /** Python's `s.split(sep)` for a one-character separator: every occurrence
      of `sep` cuts, empty pieces are kept, so there is always one piece more
      than there are separators. */
  function Split(s: string, sep: char): (pieces: seq<string>)
    ensures |pieces| >= 1
    ensures forall i :: 0 <= i < |pieces| ==> sep !in pieces[i]
    decreases |s|
  {
    if s == [] then [""]
    else
      var rest := Split(s[1..], sep);
      if s[0] == sep then [""] + rest
      else [[s[0]] + rest[0]] + rest[1..]
  }

  /** There is one piece more than there are separators. */
  lemma {:induction false} SplitCount(s: string, sep: char)
    ensures |Split(s, sep)| == multiset(s)[sep] + 1
  {
    if s != [] {
      assert s == [s[0]] + s[1..];
      SplitCount(s[1..], sep);
    }
  }

  /** The pieces with one separator between each: the inverse of `Split`
      on separator-free pieces, used to describe the template's output. */
  function Join(parts: seq<string>, sep: char): string
  {
    if parts == [] then ""
    else if |parts| == 1 then parts[0]
    else parts[0] + [sep] + Join(parts[1..], sep)
  }

  /** A string with no separator is a single piece. */
  lemma {:induction false} SplitNoSeparator(s: string, sep: char)
    requires sep !in s
    ensures Split(s, sep) == [s]
  {
    if s != [] {
      assert s == [s[0]] + s[1..];
      SplitNoSeparator(s[1..], sep);
    }
  }

  /** Splitting distributes over a separator: the pieces of `a + sep + b` are
      the pieces of `a` followed by the pieces of `b`. */
  lemma {:induction false} SplitAppend(a: string, b: string, sep: char)
    ensures Split(a + [sep] + b, sep) == Split(a, sep) + Split(b, sep)
  {
    var s := a + [sep] + b;
    if a == [] {
      assert s[1..] == b;
    } else {
      assert s[1..] == a[1..] + [sep] + b;
      SplitAppend(a[1..], b, sep);
    }
  }

  /** Two separator-free pieces around one separator split back apart. */
  lemma SplitTwoPieces(a: string, b: string, sep: char)
    requires sep !in a && sep !in b
    ensures Split(a + [sep] + b, sep) == [a, b]
  {
    SplitAppend(a, b, sep);
    SplitNoSeparator(a, sep);
    SplitNoSeparator(b, sep);
  }

  /** A separator-free word in front of a separator is the first piece. */
  lemma SplitFirstWord(word: string, rest: string, sep: char)
    requires sep !in word
    ensures Split(word + [sep] + rest, sep) == [word] + Split(rest, sep)
  {
    SplitAppend(word, rest, sep);
    SplitNoSeparator(word, sep);
  }

  /** Joining separator-free pieces and splitting again gives the pieces back. */
  lemma {:induction false} SplitJoin(parts: seq<string>, sep: char)
    requires |parts| >= 1
    requires forall i :: 0 <= i < |parts| ==> sep !in parts[i]
    ensures Split(Join(parts, sep), sep) == parts
  {
    if |parts| == 1 {
      SplitNoSeparator(parts[0], sep);
    } else {
      SplitJoin(parts[1..], sep);
      SplitNoSeparator(parts[0], sep);
      SplitAppend(parts[0], Join(parts[1..], sep), sep);
    }
  }

  /** Splitting loses nothing: joining the pieces rebuilds the string. */
  lemma {:induction false} JoinSplit(s: string, sep: char)
    ensures Join(Split(s, sep), sep) == s
  {
    if s != [] {
      JoinSplit(s[1..], sep);
      var rest := Split(s[1..], sep);
      if s[0] != sep && |rest| > 1 {
        assert rest == [rest[0]] + rest[1..];
      }
    }
  }

  /** Joining two non-empty lists of pieces puts one separator between them. */
  lemma {:induction false} JoinAppend(xs: seq<string>, ys: seq<string>, sep: char)
    requires |xs| >= 1 && |ys| >= 1
    ensures Join(xs + ys, sep) == Join(xs, sep) + [sep] + Join(ys, sep)
  {
    if |xs| > 1 {
      assert (xs + ys)[1..] == xs[1..] + ys;
      JoinAppend(xs[1..], ys, sep);
    }
  }

  /** Python's slice `s[:n]` for `n >= 0`: the first `n` elements, or all of
      `s` when it is shorter. */
  function Prefix<T>(s: seq<T>, n: nat): (p: seq<T>)
    ensures p <= s
    ensures |p| == if n < |s| then n else |s|
  {
    s[..if n < |s| then n else |s|]
  }

  /** The pieces that are not empty, in their original order (the filter
      `[l for l in ... if l]`). */
  function NonEmpty(pieces: seq<string>): (kept: seq<string>)
    ensures |kept| <= |pieces|
    ensures forall i :: 0 <= i < |kept| ==> kept[i] != [] && kept[i] in pieces
    ensures forall i :: 0 <= i < |pieces| && pieces[i] != [] ==> pieces[i] in kept
  {
    if pieces == [] then []
    else if pieces[0] == [] then NonEmpty(pieces[1..])
    else [pieces[0]] + NonEmpty(pieces[1..])
  }

  /** `[l for l in s.splitlines() if l]`, with line breaks taken to be '\n'
      only: the non-empty '\n'-free stretches of `s`, in order. */
  function NonEmptyLines(s: string): (lines: seq<string>)
    ensures forall i :: 0 <= i < |lines| ==> lines[i] != [] && '\n' !in lines[i]
  {
    NonEmpty(Split(s, '\n'))
  }

  /** Dropping empty pieces distributes over concatenation, so it keeps the
      order of the non-empty pieces. */
  lemma {:induction false} NonEmptyAppend(a: seq<string>, b: seq<string>)
    ensures NonEmpty(a + b) == NonEmpty(a) + NonEmpty(b)
  {
    if a == [] {
      assert a + b == b;
    } else {
      assert (a + b)[0] == a[0] && (a + b)[1..] == a[1..] + b;
      NonEmptyAppend(a[1..], b);
    }
  }

  /** The lines of two stretches of output joined by a line break are the
      lines of the first followed by the lines of the second. */
  lemma NonEmptyLinesAppend(a: string, b: string)
    ensures NonEmptyLines(a + "\n" + b) == NonEmptyLines(a) + NonEmptyLines(b)
  {
    SplitAppend(a, b, '\n');
    NonEmptyAppend(Split(a, '\n'), Split(b, '\n'));
  }

  /** A blank line contributes nothing: doubling a line break changes no line. */
  lemma BlankLineDropped(a: string, b: string)
    ensures NonEmptyLines(a + "\n\n" + b) == NonEmptyLines(a + "\n" + b)
  {
    assert a + "\n\n" + b == a + "\n" + ("\n" + b);
    NonEmptyLinesAppend(a, "\n" + b);
    assert "\n" + b == "" + "\n" + b;
    NonEmptyLinesAppend("", b);
    assert NonEmptyLines("") == [];
    NonEmptyLinesAppend(a, b);
  }

  /** Each line followed by a '\n', concatenated: the shape of a tool's
      output when every record is printed on a line of its own. */
  function Terminated(lines: seq<string>): string
  {
    if lines == [] then "" else lines[0] + "\n" + Terminated(lines[1..])
  }

  /** Reading the non-empty lines back from '\n'-terminated output gives the
      lines that were written, provided none is empty or holds a '\n'. */
  lemma {:induction false} NonEmptyLinesOfTerminated(lines: seq<string>)
    requires forall i :: 0 <= i < |lines| ==> lines[i] != [] && '\n' !in lines[i]
    ensures NonEmptyLines(Terminated(lines)) == lines
  {
    if lines == [] {
      assert Split("", '\n') == [""];
    } else {
      var rest := Terminated(lines[1..]);
      NonEmptyLinesOfTerminated(lines[1..]);
      assert Terminated(lines) == lines[0] + ['\n'] + rest;
      SplitAppend(lines[0], rest, '\n');
      SplitNoSeparator(lines[0], '\n');
      assert Split(Terminated(lines), '\n') == [lines[0]] + Split(rest, '\n');
      assert ([lines[0]] + Split(rest, '\n'))[1..] == Split(rest, '\n');
    }
  }

  function DigitChar(d: nat): (c: char)
    requires d < 10
    ensures '0' <= c <= '9'
  {
    "0123456789"[d]
  }

  /** Python's `'{}'.format(n)` for a non-negative integer: its decimal digits,
      most significant first, with no leading zero. */
  function Decimal(n: nat): (s: string)
    ensures |s| >= 1
    ensures forall i :: 0 <= i < |s| ==> '0' <= s[i] <= '9'
    ensures s[0] == '0' ==> n == 0
  {
    if n < 10 then [DigitChar(n)] else Decimal(n / 10) + [DigitChar(n % 10)]
  }

  /** The value a string of decimal digits denotes. */
  function DecimalValue(s: string): nat
    requires forall i :: 0 <= i < |s| ==> '0' <= s[i] <= '9'
  {
    if s == [] then 0
    else 10 * DecimalValue(s[..|s| - 1]) + (s[|s| - 1] as int - '0' as int)
  }

  /** Reading the decimal rendering back gives the number rendered. */
  lemma {:induction false} DecimalRoundTrip(n: nat)
    ensures DecimalValue(Decimal(n)) == n
  {
    var s := Decimal(n);
    if n >= 10 {
      DecimalRoundTrip(n / 10);
      assert s[..|s| - 1] == Decimal(n / 10);
    }
  }
}

=== FILE: wrappers.dfy ===
/** Failure-carrying result types shared by the other modules. */
module Wrappers {

  datatype Option<+T> = None | Some(value: T)

  datatype Result<+R, +E> = Ok(value: R) | Err(error: E)
}
